=== FILE: README.md ===
# Review-queue actions and phpBB-version bulk tagging, modelled in Dafny

This project models two small pieces of decision logic from the phpBB
Customisation Database (Titania).

1. **The queue item controller** (`controller/manage/queue/item.php`).
   - `check_auth` decides which actions a validator may run on a queue item.
     `approve` has a self-approval rule that falls through into the `validate`
     check it shares with `deny` and `allow_author_repack`.
   - `item_action` dispatches an action name through two switches. The first
     runs only while the item is open (`queue_status > 0`). The second always
     runs.
   - It also covers the `move` tag check, the `validate` form gate used by
     `approve`/`deny`, and the reply text that `allow_author_repack` composes.
2. **The phpBB-version test tool** (`phpbb_version_test::run_tool`).
   - It checks a version string's shape and sanitises it into a package name.
   - It derives the branch and point release from character positions.
   - It collects candidate revisions of the automod-testable contribution
     types into a PHP array keyed by revision id. It can restrict them to
     revisions already tagged with chosen "limit to" versions.
   - It drops revisions the revisions-phpBB table already tags with the
     target version, and emits one automod-queue row per remaining revision.

Modules:

- `Wrappers`: `Option` and `Result`.
- `Php`: the PHP coercions the code relies on, written out explicitly. These
  are `(int)` on strings, `substr`, falsy strings, and the PHP 7 loose
  `$s == 0`.
- `QueueActions`: the `Action` datatype, `Parse`/`Name`, the author flag,
  and `CheckAuth`.
- `QueueItem`: `Item`, `Request`, `Env`, `Outcome`, and `Step`, which holds
  the item left behind, the side effects in order, and the response. It also
  holds `ItemAction` exactly as written, and `ItemActionIntended` (see
  Findings).
- `VersionInput`: the shape check, `Sanitize`, `PackagePath`,
  `BranchKey`/`BranchNumber`, `PointRelease`, `CatalogKey`, the
  first-filter-is-zero test, and the filter decomposition.
- `PhpArray`: an integer-keyed PHP array that keeps insertion order. It
  supports `$a[$k] = $v`, `unset` and `sizeof`.
- `VersionTool`: the tables as row sequences, the queries, candidate
  collection, exclusion, row generation, and `RunTool`.

Conventions:

- Host-platform calls are inputs:
  - `check_link_hash`, `confirm_box(true)`, `submit_check`,
    `validate_form_key` and the posting helper's `needs_auth` are fields of
    `Request`;
  - the valid tag set, the repack URL and language strings are fields of
    `Env`;
  - `file_exists` is membership in a set of existing paths;
  - the database tables are sequences of rows;
  - the version catalog is its key set.
- `redirect()` and the prompting `confirm_box(false, …)` end the request, so
  the model treats them as the request's final `Outcome`. The cancel path of
  `confirm_box` is the exception, and it is not modelled (see "## Left out").
- The queue object's own methods (`in_progress`, `change_tested_mark`,
  `move`, `approve`, `deny`) return normally. Their visible effect is one
  field of `Item`.
- The posting helper `titania_posting::act` (item.php:212-221) is also taken
  to return. Its answer is either needs-auth or a page to render. Redirects
  or confirm prompts it may issue itself are not modelled (see
  "## Left out").

## Model

| member | source | states |
|---|---|---|
| QueueActions.Parse | controller/manage/queue/item.php:91-144 | Naming the parsed action gives the request string back. A string is classified as `Other` exactly when neither switch has a case for it. |
| QueueActions.ParseName | controller/manage/queue/item.php:91-144 | Parsing the name of a well-formed action gives the action back. |
| QueueActions.CheckAuth | controller/manage/queue/item.php:176-200 | Without `view` every request is refused, including the one with no action. `approve` is allowed iff view ∧ validate ∧ ¬(¬allow_self_validation ∧ ¬founder ∧ author). `deny` and `allow_author_repack` are allowed iff view ∧ validate. Every other action, and no action, is allowed iff view. |
| QueueActions.ApproveImpliesDenyAndRepack | controller/manage/queue/item.php:185-195 | Whoever may approve may also deny and allow a repack. |
| QueueActions.ActionImpliesDisplay | controller/manage/queue/item.php:178-181 | Any authorised action implies the item may be displayed. |
| QueueActions.SelfApprovalRule | controller/manage/queue/item.php:185-194 | With view and validate held, approval is refused exactly when self-validation is off, the user is no founder and holds one of the three authorship flags that line 167 combines into the author flag (author, active co-author, co-author). |
| QueueItem.Validate | controller/manage/queue/item.php:361-394 | Passes iff the form was submitted and the form-key check reports no error. Otherwise the form shows the form-key error when there is one, and no error when nothing was submitted. |
| QueueItem.DecideMove | controller/manage/queue/item.php:287-298 | Without a link hash or confirmation, the tag prompt is shown. Once confirmed, the move happens iff the chosen id is a valid tag, and it moves to that id. |
| QueueItem.RepackText | controller/manage/queue/item.php:254-257 | The reply is the draft, then `\n\n[url=`, the link, `]`, the label and `[/url]`. Each part can be read back at its position. |
| QueueItem.ItemAction | controller/manage/queue/item.php:76-147 | The action is the request string as classified by `Parse`. A missing item fails to load. An unauthorised action answers needs-auth and changes nothing. The status changes only through approve/deny on an open item whose validation passed, and becomes the approved or denied status. The tested mark, progress mark, repack flag and tag each change only through their own action on an open item. The tag changes only to a confirmed, valid chosen tag. The repack flag changes only on submission. |
| QueueItem.DisplayItem | controller/manage/queue/item.php:36-44 | A missing item fails to load. Otherwise the item is unchanged and the page is rendered iff `view` is held; needs-auth is answered iff it is not. |
| QueueItem.ClosedItemLocksOpenOnlyActions | controller/manage/queue/item.php:89-144 | On a closed item, the eight first-switch actions leave the item untouched, perform nothing and answer INVALID_ACTION / 404. |
| QueueItem.ClosedItemStillDispatches | controller/manage/queue/item.php:127-146 | On a closed item, `rebuild` rebuilds the first post and redirects. The posting actions still reach the posting helper. |
| QueueItem.UnknownActionIsInvalid | controller/manage/queue/item.php:127-144 | A name neither switch knows answers INVALID_ACTION / 404 with no change, whatever the status, or needs-auth without `view`. |
| QueueItem.RedirectSources | controller/manage/queue/item.php:127-146 | The controller's own redirects (lines 146, 266, 326 and 346) come only from rebuild, allow_author_repack, approve or deny. On a closed item they come only from rebuild, the only action that reaches line 146. Redirects issued inside the posting helper are outside this statement. |
| QueueItem.ConfirmedMoveRetags | controller/manage/queue/item.php:289-298 | A confirmed move of an open item to a valid tag changes exactly the tag, to the chosen id. |
| QueueItem.ResolveWhenValidated | controller/manage/queue/item.php:320-353 | For an authorised approve/deny on an open item, the request redirects iff validation passes. Then the status becomes approved/denied and the matching type hook fires. Otherwise the validation form is shown with its errors and nothing changes. |
| QueueItem.RepackWhenSubmitted | controller/manage/queue/item.php:250-277 | A submitted repack reply sets the flag, posts "Re: subject" with the draft plus the repack link, and redirects. Until the form is submitted, only the reply form is shown: nothing is posted and the item is unchanged. |
| QueueItem.ItemActionIntended | controller/manage/queue/item.php:89-146 | Corrected dispatch: on an open, authorised item, no state-only action ends in INVALID_ACTION. |
| QueueItem.IntendedAgreesElsewhere | controller/manage/queue/item.php:89-146 | The corrected and as-written dispatches agree on every request except a state-only action on an open item. |
| QueueItem.InProgressEndsInInvalidAction | controller/manage/queue/item.php:93-95 | As written, marking an open item in progress records the mark and then answers INVALID_ACTION / 404. |
| QueueItem.IntendedStateActionsRedirect | controller/manage/queue/item.php:93-111 | Corrected: state-only actions redirect. A move shows the prompt, reports NO_TAG, or redirects. The item is left exactly as the as-written dispatch leaves it. |
| QueueItem.MoveToUnknownTagReportsInvalidAction | controller/manage/queue/item.php:109-111 | As written, a confirmed move to an unknown tag answers INVALID_ACTION, not NO_TAG. |
| QueueItem.IntendedMoveToUnknownTagReportsNoTag | controller/manage/queue/item.php:293-296 | Corrected: a confirmed move to an unknown tag reports NO_TAG and leaves the item alone. |
| Php.CharToInt | titania/includes/manage_tools/phpbb_version_test.php:46 | Casting one character gives its digit value for a digit and 0 for anything else. |
| Php.Substr | titania/includes/manage_tools/phpbb_version_test.php:77 | `substr` clipped to the string: at most `len` characters, each taken from the matching position. |
| Php.IntCastOneChar | titania/includes/manage_tools/phpbb_version_test.php:46 | The general `(int)` cast of a one-character string equals the one-character cast `CharToInt`: the digit value, or 0 for a space, a sign or any other character. |
| Php.IntCastTwoDigits | titania/includes/manage_tools/phpbb_version_test.php:77 | Two digit characters cast to the two-digit number they spell. |
| VersionInput.ValidShapeIff | titania/includes/manage_tools/phpbb_version_test.php:34-37 | The version is accepted iff it has at least five characters with '.' at indices 1 and 3. The falsiness test adds nothing. |
| VersionInput.ShapeExamples | titania/includes/manage_tools/phpbb_version_test.php:34-37 | "3.1.10" is accepted. "31.10" and "3.1." are rejected. |
| VersionInput.Sanitize | titania/includes/manage_tools/phpbb_version_test.php:40 | The result contains only `[A-Za-z0-9.-]` and is no longer than the input. |
| VersionInput.SanitizeIsSubsequence | titania/includes/manage_tools/phpbb_version_test.php:40 | The sanitised version is a subsequence of the input. |
| VersionInput.SanitizeCounts | titania/includes/manage_tools/phpbb_version_test.php:40 | Every allowed character is kept as often as it occurs. Every other character is dropped. |
| VersionInput.SanitizeKeepsClean | titania/includes/manage_tools/phpbb_version_test.php:40 | A string of allowed characters is unchanged. |
| VersionInput.SanitizeIdempotent | titania/includes/manage_tools/phpbb_version_test.php:40 | Sanitising twice equals sanitising once. |
| VersionInput.PackagePath | titania/includes/manage_tools/phpbb_version_test.php:41-44 | The required package is `store/phpbb_packages/phpBB-` + the sanitised version + `.zip`. |
| VersionInput.PackageExample | titania/includes/manage_tools/phpbb_version_test.php:40-41 | "3.1.10" needs `store/phpbb_packages/phpBB-3.1.10.zip`. |
| VersionInput.BranchKey | titania/includes/manage_tools/phpbb_version_test.php:46 | The branch is two digit characters: the int casts of characters 0 and 2, concatenated. |
| VersionInput.BranchNumber | titania/includes/manage_tools/phpbb_version_test.php:46 | The database reads the branch as 10·int(v[0]) + int(v[2]), between 0 and 99. |
| VersionInput.BranchExample | titania/includes/manage_tools/phpbb_version_test.php:46 | "3.1.10" gives branch "31", read as 31. |
| VersionInput.PointRelease | titania/includes/manage_tools/phpbb_version_test.php:47 | The point release is the input from index 4 on. The input is its first four characters followed by the point release. |
| VersionInput.PointReleaseExample | titania/includes/manage_tools/phpbb_version_test.php:47 | "3.1.10" gives point release "10". |
| VersionInput.CatalogKey | titania/includes/manage_tools/phpbb_version_test.php:50-54 | The catalog key is the branch followed by the point release. |
| VersionInput.FilterRelease | titania/includes/manage_tools/phpbb_version_test.php:78 | A filter's point release is everything after its first two characters. |
| VersionInput.FilterRoundTrip | titania/includes/manage_tools/phpbb_version_test.php:77-78 | For every version the shape check accepts, its catalog key used as a filter decomposes into the same branch number and point release. This includes versions whose characters 0 and 2 are not digits. |
| VersionInput.NonZeroLeadingDigit | titania/includes/manage_tools/phpbb_version_test.php:70 | A filter starting with a non-zero digit does not read as zero. |
| VersionInput.ZeroOptionIsZero | titania/includes/manage_tools/phpbb_version_test.php:150 | The select's "no restriction" value "0" reads as zero. |
| VersionInput.EmptyFilterIsZero | titania/includes/manage_tools/phpbb_version_test.php:32 | The request default "" reads as zero. |
| VersionInput.LimiterDefaults | titania/includes/manage_tools/phpbb_version_test.php:70 | `["0"]`, `[""]` and `[]` take the unrestricted path. `["3110"]` and any two filters take the limiter path. |
| PhpArray.Put | titania/includes/manage_tools/phpbb_version_test.php:86 | Assignment keeps every key unique. A new key is appended and an existing one keeps its place. The key then holds the value, and every other key keeps its value. |
| PhpArray.RemoveKey | titania/includes/manage_tools/phpbb_version_test.php:119 | Removing a key from the order keeps exactly the other keys and keeps them unique. |
| PhpArray.Unset | titania/includes/manage_tools/phpbb_version_test.php:119 | `unset` removes exactly that key and leaves every other value alone. |
| PhpArray.SizeIsMapSize | titania/includes/manage_tools/phpbb_version_test.php:140 | `sizeof` equals the number of stored keys. |
| VersionTool.TestableTypeIds | titania/includes/manage_tools/phpbb_version_test.php:57-63 | The loop over the type registry lists a type id iff the registry has that id with its `automod_test` flag set. The list is no longer than the registry. |
| VersionTool.TestableTypeIdsMatch | titania/includes/manage_tools/phpbb_version_test.php:56-67 | When the loop walks the registry's entries, the list it builds holds exactly the testable-type set that `RunTool` uses. It is empty (the `sizeof` test at line 64) exactly when that set is empty. |
| VersionTool.AllQuery | titania/includes/manage_tools/phpbb_version_test.php:94-97 | Returns exactly the revisions whose contribution has a testable type. |
| VersionTool.FilterQuery | titania/includes/manage_tools/phpbb_version_test.php:75-82 | Returns exactly the revisions-phpBB rows with the filter's branch and point release, a testable contribution and an existing revision. |
| VersionTool.Collect | titania/includes/manage_tools/phpbb_version_test.php:84-87 | The collected keys are the earlier keys plus every returned revision id, each once. |
| VersionTool.CollectTargets | titania/includes/manage_tools/phpbb_version_test.php:73-89 | The keys after all filters are the union over filters of the revision ids each query returns. |
| VersionTool.LimiterCandidates | titania/includes/manage_tools/phpbb_version_test.php:70-89 | On the limiter path, the union over filters is exactly the candidate set. Filter `f` matches branch `int(f[0..2])` and release `f[2..]`. |
| VersionTool.AllCandidates | titania/includes/manage_tools/phpbb_version_test.php:91-104 | On the unrestricted path, the collected keys are exactly the revisions of testable contributions. |
| VersionTool.Candidates | titania/includes/manage_tools/phpbb_version_test.php:69-104 | The candidate array's keys are exactly the candidate revisions, each once. The limiter path is taken iff there is more than one filter or the first filter is non-zero. |
| VersionTool.TaggedQuery | titania/includes/manage_tools/phpbb_version_test.php:112-115 | Returns exactly the candidates the revisions-phpBB table tags with the target branch and point release. |
| VersionTool.UnsetAll | titania/includes/manage_tools/phpbb_version_test.php:117-120 | The remaining keys are the candidates minus the returned ids, each once. |
| VersionTool.RunTool | titania/includes/manage_tools/phpbb_version_test.php:29-141 | Errors come in the code's order: NO_VERSION_SELECTED, then FILE_NOT_EXIST with the package path, then NO_REVISIONS_UPDATED. The cache is invalidated iff the catalog lacks branch ++ point release. NO_REVISIONS_UPDATED means no candidate is untagged. On success: the count equals the number of rows and is positive; every row carries the derived branch and point release; revision ids are unique; and a revision has a row iff it is a candidate not yet tagged with the target version in the revisions-phpBB table. |
| VersionTool.NoTestableTypesUpdatesNothing | titania/includes/manage_tools/phpbb_version_test.php:56-67 | With no automod-testable type, the tool reports NO_REVISIONS_UPDATED and emits no rows. |
| VersionTool.CandidateEmittedOnce | titania/includes/manage_tools/phpbb_version_test.php:128-136 | A candidate selected by several filters, or listed several times, gets exactly one row. |
| VersionTool.EmittedRowsAreNotYetTagged | titania/includes/manage_tools/phpbb_version_test.php:112-138 | No emitted row is already tagged with its branch and release in the revisions-phpBB table. That is the only table the exclusion consults. |

## Left out

- Rendering: templates, breadcrumbs, navigation, language strings and the HTML built for the tag prompt and the version select (item.php:46-65, 303-311, 381-391; phpbb_version_test.php:146-158). These are presentation code; only which page is shown is modelled.
- The internals of `queue_overlord`, `contribs_overlord`, `titania_queue`, `titania_posting`, `titania_message`, `titania_post`, and BBCode storage generation. That code is not part of this model.
- QueueItem.ItemAction: the effects performed inside the queue object's methods are not modelled, because their code is not part of this model. These include topic replies, the claiming user and time, and close times. Only the flag or status each method sets is modelled.
- QueueItem.ItemAction: the values of the approved and denied statuses come from a constants file that is not part of this model. The model uses -1 and -2 and relies only on both being closed (not positive).
- A missing contribution behind an existing queue item is not modelled. `load_item` would dereference a failed lookup.
- `request_var`'s trimming and HTML escaping of inputs. The model takes the values after that step. Strings are modelled as characters while PHP counts bytes. The two agree because `request_var`, without its multibyte flag, replaces every byte from 0x80 up with '?'.
- SQL execution, `sql_multi_insert`, cache storage, `file_exists`, `confirm_box`/`check_link_hash`, and the exit behaviour of `trigger_back`. These are I/O; their answers are inputs and their effects are results.
- VersionTool.RunTool: SQL string comparison is modelled as exact equality. The database's collation may be case- or trailing-space-insensitive.
- SQL `ORDER BY`: it only decides which contribution id survives per revision key, and that value is never inserted. Rows are folded in table order.
- VersionInput.FirstFilterIsZero: it models PHP 7 loose comparison, where "" and non-numeric strings equal 0. PHP 5 reads hexadecimal strings as numbers, so under PHP 5 a first filter such as "0x1F" would take the limiter path; that case is not modelled. Under PHP 8 a non-numeric first filter such as the default "" would take the limiter path. An exponent that underflows to zero is not modelled.
- Php.IntCast: exponent notation and saturation at PHP_INT_MAX are not modelled. The code casts at most two characters, where neither can arise.
- The version catalog key is compared as a string. PHP's normalisation of decimal-looking array keys maps equal strings to equal keys, so this changes nothing.
- QueueItem.DecideMove: the cancel button of the move prompt is not modelled. `confirm_box` belongs to the host platform and its code is not part of this model. When the cancel button was posted, it returns false instead of ending the request. `move()` would then return, and item.php:111 would fall through to the INVALID_ACTION / 404 default at line 143. The model always shows the prompt in that case.
- QueueItem.Posting: the posting helper's own behaviour is not modelled, because its code is not part of this model. That helper saves replies and edits, and is handed the current URL at item.php:220. Any redirect or confirm prompt it issues to end the request is left out. The model answers only needs-auth or the posting form.
- VersionInput.UsesLimiter: the `limit_phpbb_version` array is assumed to be keyed 0, 1, … in order, as the version select posts it. Line 70 reads `$limit_phpbb_versions[0]`, the element under key 0. A hand-written request with one filter under another key breaks the assumption. An example is `limit_phpbb_version[1]=3110`: there `$limit_phpbb_versions[0]` is null, `null != 0` is false, and PHP takes the unrestricted path (lines 91-104). The model reads the first element instead and takes the limiter path.
- Concurrency and transactions. There are none in this code.

## Findings

| source | as written | input that shows it | evidently intended | confidence | as-written member | corrected member |
|---|---|---|---|---|---|---|
| controller/manage/queue/item.php:93-107 | The first switch's `in_progress`, `no_progress`, `tested` and `not_tested` cases `break` into the second switch. That switch has no case for them, so its `default` answers INVALID_ACTION / 404 after the item was already changed. The redirect at line 146 is never reached for them. | An open item (status 1) and the action `in_progress` by a user with `view`. | Record the change and redirect back to the item. | medium (assumes the queue object's methods return normally; their code is not part of this model); not executed | QueueItem.InProgressEndsInInvalidAction | QueueItem.IntendedStateActionsRedirect |
| controller/manage/queue/item.php:109-111 | `move()`'s NO_TAG response is discarded at line 110. A confirmed move to an unknown tag therefore continues into the second switch and answers INVALID_ACTION / 404. A successful move also ends that way. | An open item, a confirmed move, chosen tag 7, valid tags {3}. | Return NO_TAG for an unknown tag, and redirect after a move. | medium; not executed | QueueItem.MoveToUnknownTagReportsInvalidAction | QueueItem.IntendedMoveToUnknownTagReportsNoTag |

The intended behaviour is read off the source itself. The redirect at
item.php:146 follows the second switch and is the only way back to the item.
`move()` builds a NO_TAG response at item.php:295 that line 110 never returns.
`ItemAction` follows the code as written. `ItemActionIntended` lets the
state-only actions reach that redirect and returns the NO_TAG response. For
every other action it keeps the code's behaviour (`IntendedAgreesElsewhere`).

=== FILE: php.dfy ===
/**
  The few PHP coercions the modelled code relies on, written out explicitly:
  casting a string to int, `substr`, and the PHP 7 loose comparison of a
  string with the integer 0. Strings are sequences of characters, while PHP
  counts bytes (`strlen`, `$v[1]`). The two agree on the inputs that reach
  this code: `request_var`, called without its multibyte flag, replaces every
  byte from 0x80 up with '?', so each remaining character is one byte.
*/
module Php {

  predicate IsDigit(c: char) {
    '0' <= c <= '9'
  }

  /** The whitespace PHP skips in front of a numeric string. */
  predicate IsSpace(c: char) {
    c == ' ' || c == '\t' || c == '\n' || c == '\r' || c == '\U{B}' || c == '\U{C}'
  }

  /** `(int) $c` for a one-character string: the digit's value, 0 for anything else. */
  function CharToInt(c: char): (n: int)
    ensures 0 <= n <= 9
    ensures IsDigit(c) <==> n == c as int - '0' as int
    ensures !IsDigit(c) ==> n == 0
  {
    if IsDigit(c) then c as int - '0' as int else 0
  }

  /** The decimal digit character of a value 0..9; inverse of CharToInt on digits. */
  function DigitChar(d: int): (c: char)
    requires 0 <= d <= 9
    ensures IsDigit(c) && CharToInt(c) == d
  {
    ('0' as int + d) as char
  }

  /** `substr($s, $start, $len)` for non-negative arguments: clipped to the string. */
  function Substr(s: string, start: nat, len: nat): (r: string)
    ensures |r| <= len && (|r| > 0 ==> start + |r| <= |s|)
    ensures start <= |s| ==> |r| == if |s| - start < len then |s| - start else len
    ensures forall i :: 0 <= i < |r| ==> r[i] == s[start + i]
  {
    if start >= |s| then ""
    else if start + len >= |s| then s[start..]
    else s[start..start + len]
  }

  /**
    `substr($s, $start)`: everything from `start` on. Where PHP before 8.0
    returns `false` (start past the end) this returns "", which is what the
    value becomes once it is escaped into SQL or concatenated.
  */
  function SubstrFrom(s: string, start: nat): (r: string)
    ensures start <= |s| ==> r == s[start..]
    ensures start >= |s| ==> r == ""
  {
    if start >= |s| then "" else s[start..]
  }

  /** The longest prefix of `s` made of decimal digits. */
  function LeadingDigits(s: string): (r: string)
    ensures |r| <= |s| && r == s[..|r|]
    ensures forall i :: 0 <= i < |r| ==> IsDigit(r[i])
    ensures |r| < |s| ==> !IsDigit(s[|r|])
  {
    if |s| > 0 && IsDigit(s[0]) then [s[0]] + LeadingDigits(s[1..]) else ""
  }

  /** Decimal value of a string of digits, most significant first. */
  function DigitsValue(ds: string): (n: nat)
    decreases |ds|
  {
    if |ds| == 0 then 0 else 10 * DigitsValue(ds[..|ds| - 1]) + CharToInt(ds[|ds| - 1])
  }

  function SkipSpace(s: string): (r: string)
    ensures |r| <= |s| && r == s[|s| - |r|..]
    ensures |r| > 0 ==> !IsSpace(r[0])
  {
    if |s| > 0 && IsSpace(s[0]) then SkipSpace(s[1..]) else s
  }

  /**
    `(int) $s`: leading whitespace, an optional sign and the longest run of
    digits; 0 when there is none. Exponent notation and saturation at
    PHP_INT_MAX are not modelled: the code only casts strings of at most two
    characters, where neither can arise.
  */
  function IntCast(s: string): int {
    var t := SkipSpace(s);
    if |t| > 0 && t[0] == '-' then -(DigitsValue(LeadingDigits(t[1..])) as int)
    else if |t| > 0 && t[0] == '+' then DigitsValue(LeadingDigits(t[1..]))
    else DigitsValue(LeadingDigits(t))
  }

  /** PHP's falsy strings: `!$s` holds for exactly "" and "0". */
  predicate IsFalsyString(s: string) {
    s == "" || s == "0"
  }

  /** Some character of `ds` is a digit other than '0'. */
  predicate HasNonZeroDigit(ds: string) {
    |ds| > 0 && ((IsDigit(ds[0]) && ds[0] != '0') || HasNonZeroDigit(ds[1..]))
  }

  /** Drops one leading sign character. */
  function SkipSign(t: string): (u: string)
    ensures u == t || (|t| > 0 && u == t[1..])
  {
    if |t| > 0 && (t[0] == '-' || t[0] == '+') then t[1..] else t
  }

  /**
    The digits of the leading decimal number of `u` (integer part, then the
    fraction part after a '.'), without the point.
  */
  function MantissaDigits(u: string): string {
    var whole := LeadingDigits(u);
    var rest := u[|whole|..];
    whole + (if |rest| > 0 && rest[0] == '.' then LeadingDigits(rest[1..]) else "")
  }

  /**
    `$s == 0` with PHP 7 semantics: the string is converted to a number
    through its leading numeric prefix (whitespace, optional sign, digits,
    optional '.' and digits; no prefix at all reads as 0) and compared with 0.
    So "", "0", "00", "-0", "abc" and "0x1F" equal 0, while "3110", "31.5" and
    ".5" do not. PHP 5 differs only on hexadecimal strings, which it reads as
    numbers ("0x1F" is 31 there). PHP 8 changed this for non-numeric strings
    ("" and "abc" no longer equal 0). Neither version is modelled, and nor is
    an exponent that underflows to zero.
  */
  predicate LooselyEqualsZero(s: string) {
    !HasNonZeroDigit(MantissaDigits(SkipSign(SkipSpace(s))))
  }

  /** The general cast agrees with CharToInt on one-character strings. */
  lemma IntCastOneChar(c: char)
    ensures IntCast([c]) == CharToInt(c)
  {
    if IsSpace(c) {
      SpaceCastsToZero(c);
    } else if IsDigit(c) {
      DigitCastsToValue(c);
    } else {
      OtherCastsToZero(c);
    }
  }

  lemma SpaceCastsToZero(c: char)
    requires IsSpace(c)
    ensures IntCast([c]) == 0 && CharToInt(c) == 0
  {
    assert [c][1..] == [];
    assert SkipSpace([c]) == [];
  }

  lemma DigitCastsToValue(c: char)
    requires IsDigit(c)
    ensures IntCast([c]) == CharToInt(c)
  {
    UnsignedCast(c);
    LeadingDigitsOfOne(c);
    DigitsValueOfOne(c);
  }

  lemma OtherCastsToZero(c: char)
    requires !IsSpace(c) && !IsDigit(c)
    ensures IntCast([c]) == 0 && CharToInt(c) == 0
  {
    LeadingDigitsOfOne(c);
    if c == '-' || c == '+' {
      SignCast(c);
    } else {
      UnsignedCast(c);
    }
  }

  /** A one-character string that is neither space nor sign casts through its leading digits. */
  lemma UnsignedCast(c: char)
    requires !IsSpace(c) && c != '-' && c != '+'
    ensures IntCast([c]) == DigitsValue(LeadingDigits([c]))
  {
    UnsignedStringCast([c]);
  }

  /** A string starting with neither space nor sign casts through its leading digits. */
  lemma UnsignedStringCast(s: string)
    requires |s| > 0 && !IsSpace(s[0]) && s[0] != '-' && s[0] != '+'
    ensures IntCast(s) == DigitsValue(LeadingDigits(s))
  {
    var t := SkipSpace(s);
    assert t == s;
  }

  /** A lone sign has no digits after it. */
  lemma SignCast(c: char)
    requires c == '-' || c == '+'
    ensures IntCast([c]) == 0
  {
    assert !IsSpace(c);
    assert SkipSpace([c]) == [c];
    assert [c][1..] == [];
  }

  lemma LeadingDigitsOfOne(c: char)
    ensures LeadingDigits([c]) == if IsDigit(c) then [c] else []
  {
    assert [c][1..] == [];
  }

  lemma DigitsValueOfOne(c: char)
    ensures DigitsValue([c]) == CharToInt(c)
  {
    assert [c][..0] == [];
  }

  /** A pair of digit characters casts to the two-digit number they spell. */
  lemma IntCastTwoDigits(a: char, b: char)
    requires IsDigit(a) && IsDigit(b)
    ensures IntCast([a, b]) == 10 * CharToInt(a) + CharToInt(b)
  {
    var s := [a, b];
    assert !IsSpace(a);
    assert SkipSpace(s) == s;
    assert s[1..] == [b];
    assert LeadingDigits([b]) == [b] by {
      assert [b][1..] == [];
    }
    assert LeadingDigits(s) == s;
    assert DigitsValue([a]) == CharToInt(a) by {
      assert [a][..0] == [];
    }
    assert s[..1] == [a];
    assert DigitsValue(s) == 10 * DigitsValue([a]) + CharToInt(b);
  }
}

=== FILE: php_array.dfy ===
/**
  A PHP array with integer keys, as the tagging tool uses `$revisions`:
  keys kept in insertion order, assigning to an existing key replaces its value
  in place, `unset` removes a key, and `sizeof` counts the keys.
*/
module PhpArray {

  datatype IntArray = IntArray(keys: seq<int>, vals: map<int, int>)

  predicate Distinct(s: seq<int>) {
    forall i, j :: 0 <= i < j < |s| ==> s[i] != s[j]
  }

  /** Every key occurs once in the order and the order holds exactly the keys of the map. */
  ghost predicate Valid(a: IntArray) {
    Distinct(a.keys) && forall k :: k in a.vals <==> k in a.keys
  }

  const Empty: IntArray := IntArray([], map[])

  /** `$a[$k] = $v`: a new key goes to the end, an existing one keeps its place. */
  function Put(a: IntArray, k: int, v: int): (r: IntArray)
    requires Valid(a)
    ensures Valid(r)
    ensures forall x :: x in r.keys <==> x in a.keys || x == k
    ensures k in r.vals && r.vals[k] == v
    ensures forall x :: x in a.vals && x != k ==> x in r.vals && r.vals[x] == a.vals[x]
    ensures k in a.keys ==> r.keys == a.keys
    ensures k !in a.keys ==> r.keys == a.keys + [k]
  {
    if k in a.vals then IntArray(a.keys, a.vals[k := v])
    else IntArray(a.keys + [k], a.vals[k := v])
  }

  /** The order with one key taken out. */
  function RemoveKey(s: seq<int>, k: int): (r: seq<int>)
    ensures forall x :: x in r <==> x in s && x != k
    ensures Distinct(s) ==> Distinct(r)
    ensures |r| <= |s|
  {
    if s == [] then []
    else
      var rest := RemoveKey(s[1..], k);
      if s[0] == k then rest
      else
        assert Distinct(s) ==> s[0] !in s[1..] && Distinct(s[1..]) by {
          if Distinct(s) {
            forall j | 0 <= j < |s[1..]| ensures s[1..][j] != s[0] {
              assert s[1..][j] == s[j + 1];
            }
          }
        }
        DistinctCons(s[0], rest);
        [s[0]] + rest
  }

  /** Putting a new element in front keeps a sequence free of repetitions. */
  lemma DistinctCons(x: int, t: seq<int>)
    ensures x !in t && Distinct(t) ==> Distinct([x] + t)
  {
    if x !in t && Distinct(t) {
      var s := [x] + t;
      forall i, j | 0 <= i < j < |s| ensures s[i] != s[j] {
        assert s[j] == t[j - 1];
        if i > 0 {
          assert s[i] == t[i - 1];
        }
      }
    }
  }

  /** `unset($a[$k])`: the key leaves the order and the map; nothing else changes. */
  function Unset(a: IntArray, k: int): (r: IntArray)
    requires Valid(a)
    ensures Valid(r)
    ensures forall x :: x in r.keys <==> x in a.keys && x != k
    ensures forall x :: x in r.vals ==> x in a.vals && r.vals[x] == a.vals[x]
  {
    IntArray(RemoveKey(a.keys, k), a.vals - {k})
  }

  /** `sizeof($a)`. */
  function Size(a: IntArray): nat {
    |a.keys|
  }

  /** The count of a valid array is the number of keys its map holds. */
  lemma {:induction false} SizeIsMapSize(a: IntArray)
    requires Valid(a)
    ensures Size(a) == |a.vals|
  {
    DistinctCard(a.keys);
    assert a.vals.Keys == set x | x in a.keys;
  }

  /** A sequence without repetitions has as many elements as its set. */
  lemma {:induction false} DistinctCard(s: seq<int>)
    requires Distinct(s)
    ensures |set x | x in s| == |s|
  {
    if s != [] {
      var t := s[1..];
      assert Distinct(t);
      DistinctCard(t);
      assert (set x | x in s) == (set x | x in t) + {s[0]};
      assert s[0] !in t;
    }
  }
}

=== FILE: queue_actions.dfy ===
/**
  The action names a queue item accepts and the authorisation policy that
  guards them (controller/manage/queue/item.php, `check_auth` and the author
  flag computed by `load_item`).
*/
module QueueActions {
  import opened Wrappers

  /** The action names the controller recognises; any other name is kept verbatim. */
  datatype Action =
    | InProgress | NoProgress | Tested | NotTested | Move
    | AllowAuthorRepack | Approve | Deny
    | Rebuild | Reply | Quote | Edit | QuickEdit | Delete | Undelete
    | Other(name: string)

  /** The route parameter that names each known action. */
  function Name(a: Action): string {
    match a
    case InProgress => "in_progress"
    case NoProgress => "no_progress"
    case Tested => "tested"
    case NotTested => "not_tested"
    case Move => "move"
    case AllowAuthorRepack => "allow_author_repack"
    case Approve => "approve"
    case Deny => "deny"
    case Rebuild => "rebuild"
    case Reply => "reply"
    case Quote => "quote"
    case Edit => "edit"
    case QuickEdit => "quick_edit"
    case Delete => "delete"
    case Undelete => "undelete"
    case Other(n) => n
  }

  /** The names the two `switch` statements of `item_action` match on. */
  const KnownNames: set<string> :=
    {"in_progress", "no_progress", "tested", "not_tested", "move",
     "allow_author_repack", "approve", "deny",
     "rebuild", "reply", "quote", "edit", "quick_edit", "delete", "undelete"}

  /** An `Other` never carries a name that one of the switches would match. */
  predicate WellFormed(a: Action) {
    a.Other? ==> a.name !in KnownNames
  }

  /**
    Classifies the action string of a request. PHP's `switch` compares with
    `==`; for two non-numeric strings that is plain string equality.
  */
  function Parse(s: string): (a: Action)
    ensures Name(a) == s
    ensures WellFormed(a)
    ensures a.Other? <==> s !in KnownNames
  {
    if s == "in_progress" then InProgress
    else if s == "no_progress" then NoProgress
    else if s == "tested" then Tested
    else if s == "not_tested" then NotTested
    else if s == "move" then Move
    else if s == "allow_author_repack" then AllowAuthorRepack
    else if s == "approve" then Approve
    else if s == "deny" then Deny
    else if s == "rebuild" then Rebuild
    else if s == "reply" then Reply
    else if s == "quote" then Quote
    else if s == "edit" then Edit
    else if s == "quick_edit" then QuickEdit
    else if s == "delete" then Delete
    else if s == "undelete" then Undelete
    else Other(s)
  }

  /** Naming a well-formed action and parsing the name gives the action back. */
  lemma ParseName(a: Action)
    requires WellFormed(a)
    ensures Parse(Name(a)) == a
  {
  }

  /** The actions of the first switch, which run only while the item is open. */
  predicate OpenOnly(a: Action) {
    a.InProgress? || a.NoProgress? || a.Tested? || a.NotTested? || a.Move?
    || a.AllowAuthorRepack? || a.Approve? || a.Deny?
  }

  /** The posting actions handed to the posting helper. */
  predicate IsPosting(a: Action) {
    a.Reply? || a.Quote? || a.Edit? || a.QuickEdit? || a.Delete? || a.Undelete?
  }

  /** The actions of the second switch, which run whatever the item's status. */
  predicate AlwaysAvailable(a: Action) {
    a.Rebuild? || IsPosting(a)
  }

  /** The contribution's authorship flags for the current user. */
  datatype Authorship = Authorship(isAuthor: bool, isActiveCoauthor: bool, isCoauthor: bool)

  /** The derived author flag of `load_item`: any of the three authorship flags. */
  predicate IsAuthor(au: Authorship) {
    au.isAuthor || au.isActiveCoauthor || au.isCoauthor
  }

  /**
    Everything `check_auth` consults: the `view` and `validate` capabilities on
    the contribution's type, the `allow_self_validation` setting, whether the
    user is a founder, and the authorship flags.
  */
  datatype Principal = Principal(
    view: bool,
    validate: bool,
    allowSelfValidation: bool,
    founder: bool,
    authorship: Authorship)

  /** The self-approval rule: an author may not approve their own contribution unless allowed or a founder. */
  predicate SelfApprovalBlocked(p: Principal) {
    !p.allowSelfValidation && !p.founder && IsAuthor(p.authorship)
  }

  /**
    `check_auth($action)`; `None` is the call without an action (displaying the
    item). Without `view` nothing is allowed. `approve` first applies the
    self-approval rule and then falls through into the `validate` check shared
    with `allow_author_repack` and `deny`; every other action needs only `view`.
  */
  function CheckAuth(action: Option<Action>, p: Principal): (ok: bool)
    requires action.Some? ==> WellFormed(action.value)
    ensures !p.view ==> !ok
    ensures action == Some(Approve) ==>
      (ok <==> p.view && p.validate && !(!p.allowSelfValidation && !p.founder && IsAuthor(p.authorship)))
    ensures action == Some(Deny) || action == Some(AllowAuthorRepack) ==>
      (ok <==> p.view && p.validate)
    ensures action.None? || !(action.value.Approve? || action.value.Deny? || action.value.AllowAuthorRepack?) ==>
      (ok <==> p.view)
  {
    if !p.view then false
    else match action
      case Some(Approve) =>
        if SelfApprovalBlocked(p) then false
        else p.validate  // falls through into the next case
      case Some(AllowAuthorRepack) => p.validate
      case Some(Deny) => p.validate
      case _ => true
  }

  /** Whoever may approve may also deny and allow a repack. */
  lemma ApproveImpliesDenyAndRepack(p: Principal)
    requires CheckAuth(Some(Approve), p)
    ensures CheckAuth(Some(Deny), p) && CheckAuth(Some(AllowAuthorRepack), p)
  {
  }

  /** Any authorised action implies the item itself may be displayed. */
  lemma ActionImpliesDisplay(a: Action, p: Principal)
    requires WellFormed(a) && CheckAuth(Some(a), p)
    ensures CheckAuth(None, p)
  {
  }

  /**
    With `view` and `validate` held, approval is refused exactly when self
    validation is off, the user is no founder and holds one of the three
    authorship flags; dropping any one of those conditions permits it.
  */
  lemma SelfApprovalRule(p: Principal)
    requires p.view && p.validate
    ensures !CheckAuth(Some(Approve), p) <==>
      (!p.allowSelfValidation && !p.founder
       && (p.authorship.isAuthor || p.authorship.isActiveCoauthor || p.authorship.isCoauthor))
  {
  }
}

=== FILE: queue_item.dfy ===
/**
  A queue item's request handling (controller/manage/queue/item.php):
  `display_item`, `item_action` with its two switches, `move`, `validate`,
  `approve`, `deny`, `allow_author_repack` and the hand-off to the posting
  helper.

  Calls into objects whose source is not part of this model become inputs:
  the link-hash and confirm-box checks, `submit_check`, `validate_form_key`
  and the posting helper's verdict are fields of `Request`; the valid tag set,
  the revision's repack URL and language strings are fields of `Env`. The
  queue object's own methods (`in_progress`, `change_tested_mark`, `move`,
  `approve`, `deny`) return normally and their visible effect is a field of
  `Item`. `redirect()` and the prompting `confirm_box(false, ...)` end the
  request, so they are the request's final `Outcome`.
*/
module QueueItem {
  import opened Wrappers
  import opened QueueActions

  /**
    The statuses `titania_queue::approve` and `::deny` leave behind. The
    constants file is not part of this model; all that matters here is that
    both are closed (not positive).
  */
  const StatusApproved: int := -1
  const StatusDenied: int := -2

  /** The parts of a queue item the controller's actions change. */
  datatype Item = Item(
    status: int,              // queue_status; positive while open
    tested: bool,             // the tested mark
    inProgress: bool,         // whether a validator has claimed the item
    allowAuthorRepack: bool,  // allow_author_repack
    tag: int)                 // the queue tag the item is filed under

  /** Line 89: the first switch runs only while the status is positive. */
  predicate IsOpen(it: Item) {
    it.status > 0
  }

  /** What the request carries besides the action name, and the answers of checks made on it. */
  datatype Request = Request(
    linkHashOk: bool,              // check_link_hash($hash, 'quick_actions')
    confirmed: bool,               // confirm_box(true)
    chosenTag: int,                // request variable 'id' (default 0)
    submitted: bool,               // the message object's submit_check()
    formKeyError: Option<string>,  // validate_form_key(): None where it returns false
    postingNeedsAuth: bool,        // the posting helper reported needs_auth
    draft: string)                 // the reply text as returned for editing

  /** Site data the actions read. */
  datatype Env = Env(
    validTags: set<int>,   // keys of the queue's tag map
    repackLink: string,    // the contribution's revision URL with the repack parameter
    repackLabel: string,   // the AUTHOR_REPACK_LINK language string
    topicSubject: string)  // subject of the queue discussion topic

  /** Effects outside the item itself, in the order the code performs them. */
  datatype Event =
    | FirstPostRebuilt                          // update_first_queue_post()
    | TypeApproved                              // the contribution type's approve hook
    | TypeDenied                                // the contribution type's deny hook
    | PostSubmitted(subject: string, text: string)
    | TopicReply(langKey: string)

  datatype Page =
    | ItemPage
    | MoveConfirm
    | ReplyForm
    | ValidationForm(action: Action, errors: seq<string>)
    | PostingForm(action: Action)

  datatype ErrorCode = InvalidAction | NoTag

  /** How the request ends. `http` is None where the helper's default status is used. */
  datatype Outcome =
    | Redirect
    | Rendered(page: Page)
    | NeedsAuth
    | Error(code: ErrorCode, http: Option<int>)

  /** The item as the request leaves it, the effects performed, and the response. */
  datatype Step = Step(item: Item, events: seq<Event>, outcome: Outcome)

  /** `load_item` throws when no queue item has the id. */
  datatype LoadError = NoQueueItem

  const InvalidActionError: Outcome := Error(InvalidAction, Some(404))

  /** The verdict of `validate($action)` together with the errors it shows. */
  datatype Validation = Validation(passed: bool, errors: seq<string>)

  /**
    `validate`: passes exactly when the form was submitted and the form key
    check reports no error; otherwise the form is shown again with the
    form-key error, if there was one.
  */
  function Validate(req: Request): (v: Validation)
    ensures v.passed <==> req.submitted && req.formKeyError.None?
    ensures v.passed ==> v.errors == []
    ensures !v.passed && !req.submitted ==> v.errors == []
    ensures !v.passed && req.submitted ==> v.errors == [req.formKeyError.value]
  {
    if req.submitted then
      match req.formKeyError
      case None => Validation(true, [])
      case Some(e) => Validation(false, [e])
    else Validation(false, [])
  }

  /** What `move` decides from the request. */
  datatype MoveDecision = Prompt | UnknownTag | MoveTo(tag: int)

  /** Lines 289-298: prompt unless confirmed; once confirmed the chosen tag must be a valid one. */
  function DecideMove(req: Request, env: Env): (d: MoveDecision)
    ensures d.Prompt? <==> !(req.linkHashOk || req.confirmed)
    ensures d.MoveTo? <==> (req.linkHashOk || req.confirmed) && req.chosenTag in env.validTags
    ensures d.MoveTo? ==> d.tag == req.chosenTag
  {
    if req.linkHashOk || req.confirmed then
      if req.chosenTag !in env.validTags then UnknownTag else MoveTo(req.chosenTag)
    else Prompt
  }

  const RepackOpen: string := "\n\n[url="
  const RepackClose: string := "[/url]"

  /**
    The reply text of `allow_author_repack`: the author's draft followed by a
    blank line and a BBCode link to the revision's repack action.
  */
  function RepackText(draft: string, link: string, caption: string): (t: string)
    ensures |t| == |draft| + |link| + |caption| + 14
    ensures t[..|draft|] == draft
    ensures t[|draft|..|draft| + 7] == "\n\n[url="
    ensures t[|draft| + 7..|draft| + 7 + |link|] == link
    ensures t[|draft| + 7 + |link|] == ']'
    ensures t[|draft| + 8 + |link|..|t| - 6] == caption
    ensures t[|t| - 6..] == "[/url]"
  {
    draft + RepackOpen + link + "]" + caption + RepackClose
  }

  /** Lines 236-278: on submission set the flag, post the reply with the link, and redirect. */
  function Repack(it: Item, req: Request, env: Env): Step {
    if req.submitted then
      Step(it.(allowAuthorRepack := true),
           [PostSubmitted("Re: " + env.topicSubject, RepackText(req.draft, env.repackLink, env.repackLabel)),
            TopicReply("QUEUE_REPLY_ALLOW_REPACK")],
           Redirect)
    else Step(it, [], Rendered(ReplyForm))
  }

  /** Lines 320-353: approve or deny once `validate` passes, else show the validation form. */
  function Resolve(it: Item, approve: bool, req: Request): Step {
    var v := Validate(req);
    if v.passed then
      if approve then Step(it.(status := StatusApproved), [TypeApproved], Redirect)
      else Step(it.(status := StatusDenied), [TypeDenied], Redirect)
    else Step(it, [], Rendered(ValidationForm(if approve then Approve else Deny, v.errors)))
  }

  /**
    Lines 207-229: the posting helper's result, or its request for
    authentication. The helper is taken to return; any redirect or confirm
    prompt of its own that ends the request is not modelled.
  */
  function Posting(it: Item, a: Action, req: Request): Step {
    if req.postingNeedsAuth then Step(it, [], NeedsAuth)
    else Step(it, [], Rendered(PostingForm(a)))
  }

  /** Lines 127-146: the second switch; only `rebuild` reaches the redirect after it. */
  function SecondSwitch(it: Item, a: Action, req: Request): Step {
    if a.Rebuild? then Step(it, [FirstPostRebuilt], Redirect)
    else if IsPosting(a) then Posting(it, a, req)
    else Step(it, [], InvalidActionError)
  }

  /**
    Lines 91-124 as written: the state actions change the item and `break`
    into the second switch; `move`'s NO_TAG response is not returned (line
    110) so it also continues there.
  */
  function FirstSwitch(it: Item, a: Action, req: Request, env: Env): Step {
    match a
    case InProgress => SecondSwitch(it.(inProgress := true), a, req)
    case NoProgress => SecondSwitch(it.(inProgress := false), a, req)
    case Tested => SecondSwitch(it.(tested := true), a, req)
    case NotTested => SecondSwitch(it.(tested := false), a, req)
    case Move =>
      (match DecideMove(req, env)
       case Prompt => Step(it, [], Rendered(MoveConfirm))
       case UnknownTag => SecondSwitch(it, a, req)
       case MoveTo(t) => SecondSwitch(it.(tag := t), a, req))
    case AllowAuthorRepack => Repack(it, req, env)
    case Approve => Resolve(it, true, req)
    case Deny => Resolve(it, false, req)
    case _ => SecondSwitch(it, a, req)
  }

  /**
    `item_action($id, $action)` as written: load the item, check the action's
    authorisation, then the status-gated first switch and the second switch.
    The action is the request's string as `Parse` classifies it, hence well
    formed: an `Other` never carries a name one of the switches matches.
  */
  function ItemAction(stored: Option<Item>, a: Action, p: Principal, req: Request, env: Env)
    : (r: Result<Step, LoadError>)
    requires WellFormed(a)
    ensures stored.None? <==> r.Failure?
    ensures r.Success? && !CheckAuth(Some(a), p) ==> r.value == Step(stored.value, [], NeedsAuth)
    ensures r.Success? && r.value.item.status != stored.value.status ==>
      IsOpen(stored.value) && (a.Approve? || a.Deny?) && Validate(req).passed
      && r.value.item.status == (if a.Approve? then StatusApproved else StatusDenied)
    ensures r.Success? && r.value.item.tested != stored.value.tested ==>
      IsOpen(stored.value) && (a.Tested? || a.NotTested?) && r.value.item.tested == a.Tested?
    ensures r.Success? && r.value.item.inProgress != stored.value.inProgress ==>
      IsOpen(stored.value) && (a.InProgress? || a.NoProgress?) && r.value.item.inProgress == a.InProgress?
    ensures r.Success? && r.value.item.allowAuthorRepack != stored.value.allowAuthorRepack ==>
      IsOpen(stored.value) && a.AllowAuthorRepack? && req.submitted
    ensures r.Success? && r.value.item.tag != stored.value.tag ==>
      IsOpen(stored.value) && a.Move? && (req.linkHashOk || req.confirmed)
      && req.chosenTag in env.validTags && r.value.item.tag == req.chosenTag
  {
    match stored
    case None => Failure(NoQueueItem)
    case Some(it) =>
      if !CheckAuth(Some(a), p) then Success(Step(it, [], NeedsAuth))
      else if IsOpen(it) then Success(FirstSwitch(it, a, req, env))
      else Success(SecondSwitch(it, a, req))
  }

  /** `display_item`: the item page when `view` is held, the authentication response otherwise. */
  function DisplayItem(stored: Option<Item>, p: Principal): (r: Result<Step, LoadError>)
    ensures stored.None? <==> r.Failure?
    ensures r.Success? ==> r.value.item == stored.value && r.value.events == []
    ensures r.Success? ==> (r.value.outcome == Rendered(ItemPage) <==> p.view)
    ensures r.Success? ==> (r.value.outcome == NeedsAuth <==> !p.view)
  {
    match stored
    case None => Failure(NoQueueItem)
    case Some(it) =>
      if !CheckAuth(None, p) then Success(Step(it, [], NeedsAuth))
      else Success(Step(it, [], Rendered(ItemPage)))
  }

  /** The state-only actions of the first switch, whose handlers return normally. */
  predicate IsStateAction(a: Action) {
    a.InProgress? || a.NoProgress? || a.Tested? || a.NotTested? || a.Move?
  }

  /**
    Closed items: every first-switch action leaves the item and everything
    else untouched and ends in INVALID_ACTION with HTTP 404.
  */
  lemma ClosedItemLocksOpenOnlyActions(it: Item, a: Action, p: Principal, req: Request, env: Env)
    requires !IsOpen(it) && OpenOnly(a) && CheckAuth(Some(a), p)
    ensures ItemAction(Some(it), a, p, req, env) == Success(Step(it, [], InvalidActionError))
  {
  }

  /** Closed items: `rebuild` and the posting actions still run. */
  lemma ClosedItemStillDispatches(it: Item, a: Action, p: Principal, req: Request, env: Env)
    requires !IsOpen(it) && AlwaysAvailable(a) && CheckAuth(Some(a), p)
    ensures a.Rebuild? ==> ItemAction(Some(it), a, p, req, env) == Success(Step(it, [FirstPostRebuilt], Redirect))
    ensures IsPosting(a) ==>
      ItemAction(Some(it), a, p, req, env)
      == Success(Step(it, [], if req.postingNeedsAuth then NeedsAuth else Rendered(PostingForm(a))))
  {
  }

  /** A name neither switch knows ends in INVALID_ACTION / 404 with no change, whatever the status. */
  lemma UnknownActionIsInvalid(it: Item, s: string, p: Principal, req: Request, env: Env)
    requires s !in KnownNames
    ensures ItemAction(Some(it), Parse(s), p, req, env) ==
      Success(Step(it, [], if p.view then InvalidActionError else NeedsAuth))
  {
  }

  /**
    The controller's own redirects come only from `rebuild` (line 146) and
    from the three handlers that redirect themselves (lines 266, 326, 346); a
    state-only action never reaches one.
  */
  lemma RedirectSources(it: Item, a: Action, p: Principal, req: Request, env: Env)
    requires WellFormed(a)
    ensures ItemAction(Some(it), a, p, req, env).value.outcome.Redirect? ==>
      a.Rebuild? || a.AllowAuthorRepack? || a.Approve? || a.Deny?
    ensures ItemAction(Some(it), a, p, req, env).value.outcome.Redirect? && !IsOpen(it) ==> a.Rebuild?
  {
  }

  /** A confirmed move to a valid tag files the item under that tag. */
  lemma ConfirmedMoveRetags(it: Item, p: Principal, req: Request, env: Env)
    requires IsOpen(it) && p.view
    requires (req.linkHashOk || req.confirmed) && req.chosenTag in env.validTags
    ensures ItemAction(Some(it), Move, p, req, env).value.item == it.(tag := req.chosenTag)
  {
  }

  /** Approve and deny close the item, fire the type hook and redirect exactly when `validate` passes. */
  lemma ResolveWhenValidated(it: Item, a: Action, p: Principal, req: Request, env: Env)
    requires IsOpen(it) && (a.Approve? || a.Deny?) && CheckAuth(Some(a), p)
    ensures var st := ItemAction(Some(it), a, p, req, env).value;
      (st.outcome == Redirect <==> Validate(req).passed)
      && (Validate(req).passed ==>
            st.item == it.(status := if a.Approve? then StatusApproved else StatusDenied)
            && st.events == [if a.Approve? then TypeApproved else TypeDenied])
      && (!Validate(req).passed ==>
            st == Step(it, [], Rendered(ValidationForm(a, Validate(req).errors))))
  {
  }

  /**
    A submitted repack reply sets the flag and posts the draft with the repack
    link appended; until the form is submitted only the reply form is shown and
    nothing is posted or changed.
  */
  lemma RepackWhenSubmitted(it: Item, p: Principal, req: Request, env: Env)
    requires IsOpen(it) && CheckAuth(Some(AllowAuthorRepack), p)
    ensures var st := ItemAction(Some(it), AllowAuthorRepack, p, req, env).value;
      !req.submitted ==> st == Step(it, [], Rendered(ReplyForm))
    ensures var st := ItemAction(Some(it), AllowAuthorRepack, p, req, env).value;
      req.submitted ==>
      st.item == it.(allowAuthorRepack := true) && st.outcome == Redirect
      && st.events[0] == PostSubmitted("Re: " + env.topicSubject, req.draft + "\n\n[url=" + env.repackLink + "]" + env.repackLabel + "[/url]")
  {
  }

  // ---------------------------------------------------------------------
  // The dispatch the code evidently intends: the state-only actions reach the
  // redirect back to the item that follows the second switch (line 146), and
  // a move to an unknown tag returns the NO_TAG response `move()` builds
  // (line 295) instead of dropping it.
  // ---------------------------------------------------------------------

  /** The first switch with the state-only actions redirecting and NO_TAG returned. */
  function FirstSwitchIntended(it: Item, a: Action, req: Request, env: Env): Step {
    match a
    case InProgress => Step(it.(inProgress := true), [], Redirect)
    case NoProgress => Step(it.(inProgress := false), [], Redirect)
    case Tested => Step(it.(tested := true), [], Redirect)
    case NotTested => Step(it.(tested := false), [], Redirect)
    case Move =>
      (match DecideMove(req, env)
       case Prompt => Step(it, [], Rendered(MoveConfirm))
       case UnknownTag => Step(it, [], Error(NoTag, None))
       case MoveTo(t) => Step(it.(tag := t), [], Redirect))
    case _ => FirstSwitch(it, a, req, env)
  }

  /** `item_action` with the corrected first switch. */
  function ItemActionIntended(stored: Option<Item>, a: Action, p: Principal, req: Request, env: Env)
    : (r: Result<Step, LoadError>)
    requires WellFormed(a)
    ensures stored.None? <==> r.Failure?
    ensures r.Success? && IsStateAction(a) && CheckAuth(Some(a), p) && IsOpen(stored.value) ==>
      r.value.outcome != InvalidActionError
  {
    match stored
    case None => Failure(NoQueueItem)
    case Some(it) =>
      if !CheckAuth(Some(a), p) then Success(Step(it, [], NeedsAuth))
      else if IsOpen(it) then Success(FirstSwitchIntended(it, a, req, env))
      else Success(SecondSwitch(it, a, req))
  }

  /** The two dispatches differ only on the state-only actions of an open item. */
  lemma IntendedAgreesElsewhere(stored: Option<Item>, a: Action, p: Principal, req: Request, env: Env)
    requires WellFormed(a)
    requires !IsStateAction(a) || stored.None? || !IsOpen(stored.value)
    ensures ItemActionIntended(stored, a, p, req, env) == ItemAction(stored, a, p, req, env)
  {
  }

  /**
    As written, marking an open item in progress records the mark and then
    answers INVALID_ACTION / 404 instead of redirecting to the item.
  */
  lemma InProgressEndsInInvalidAction()
    ensures var it := Item(1, false, false, false, 0);
      var p := Principal(true, false, false, false, Authorship(false, false, false));
      var req := Request(false, false, 0, false, None, false, "");
      ItemAction(Some(it), InProgress, p, req, Env({}, "", "", "")) ==
        Success(Step(it.(inProgress := true), [], InvalidActionError))
  {
  }

  /** Corrected: every state-only action on an open item ends in a redirect, or the move prompt, or NO_TAG. */
  lemma IntendedStateActionsRedirect(it: Item, a: Action, p: Principal, req: Request, env: Env)
    requires IsOpen(it) && IsStateAction(a) && p.view
    ensures var st := ItemActionIntended(Some(it), a, p, req, env).value;
      !a.Move? ==> st.outcome == Redirect
    ensures var st := ItemActionIntended(Some(it), a, p, req, env).value;
      a.Move? ==> st.outcome == match DecideMove(req, env)
        case Prompt => Rendered(MoveConfirm)
        case UnknownTag => Error(NoTag, None)
        case MoveTo(_) => Redirect
    ensures ItemActionIntended(Some(it), a, p, req, env).value.item ==
      ItemAction(Some(it), a, p, req, env).value.item
  {
  }

  /** As written, a confirmed move to an unknown tag answers INVALID_ACTION, not NO_TAG. */
  lemma MoveToUnknownTagReportsInvalidAction()
    ensures var it := Item(1, false, false, false, 3);
      var p := Principal(true, false, false, false, Authorship(false, false, false));
      var req := Request(false, true, 7, false, None, false, "");
      ItemAction(Some(it), Move, p, req, Env({3}, "", "", "")) ==
        Success(Step(it, [], InvalidActionError))
  {
  }

  /** Corrected: a confirmed move to an unknown tag reports NO_TAG and leaves the item alone. */
  lemma IntendedMoveToUnknownTagReportsNoTag(it: Item, p: Principal, req: Request, env: Env)
    requires IsOpen(it) && p.view
    requires (req.linkHashOk || req.confirmed) && req.chosenTag !in env.validTags
    ensures ItemActionIntended(Some(it), Move, p, req, env) == Success(Step(it, [], Error(NoTag, None)))
  {
  }
}

=== FILE: version_input.dfy ===
/**
  How the bulk tagging tool reads its inputs
  (titania/includes/manage_tools/phpbb_version_test.php, lines 31-54 and 70-78):
  the shape check on the new version string, its sanitising into a package
  file name, the branch and point-release taken from character positions, and
  the same decomposition of the "limit to" filter values.
*/
module VersionInput {
  import opened Php

  /** Line 34: rejected unless non-falsy, at least five characters, with '.' at indices 1 and 3. */
  predicate ValidShape(v: string) {
    !IsFalsyString(v) && |v| >= 5 && v[1] == '.' && v[3] == '.'
  }

  /** The falsiness test adds nothing: both falsy strings are shorter than five characters. */
  lemma ValidShapeIff(v: string)
    ensures ValidShape(v) <==> |v| >= 5 && v[1] == '.' && v[3] == '.'
  {
  }

  /** The characters `[a-zA-Z0-9.-]` the package-name sanitiser keeps. */
  predicate AllowedChar(c: char) {
    ('a' <= c <= 'z') || ('A' <= c <= 'Z') || ('0' <= c <= '9') || c == '.' || c == '-'
  }

  /** Line 40: every character outside `[a-zA-Z0-9.-]` is removed. */
  function Sanitize(s: string): (r: string)
    ensures |r| <= |s|
    ensures forall i :: 0 <= i < |r| ==> AllowedChar(r[i])
  {
    if s == [] then []
    else (if AllowedChar(s[0]) then [s[0]] else []) + Sanitize(s[1..])
  }

  /** `a` is obtained from `b` by deleting characters: either `b`'s first character is kept or it is dropped. */
  predicate IsSubsequence(a: string, b: string)
    decreases |b|
  {
    if b == [] then a == []
    else (a != [] && a[0] == b[0] && IsSubsequence(a[1..], b[1..])) || IsSubsequence(a, b[1..])
  }

  /** Sanitising only deletes characters. */
  lemma {:induction false} SanitizeIsSubsequence(s: string)
    ensures IsSubsequence(Sanitize(s), s)
    decreases |s|
  {
    if s != [] {
      SanitizeIsSubsequence(s[1..]);
      if AllowedChar(s[0]) {
        assert Sanitize(s) == [s[0]] + Sanitize(s[1..]);
        assert Sanitize(s)[1..] == Sanitize(s[1..]);
      } else {
        assert Sanitize(s) == Sanitize(s[1..]);
      }
    }
  }

  /** Sanitising keeps every allowed character as often as it occurs and drops every other one. */
  lemma {:induction false} SanitizeCounts(s: string)
    ensures forall c :: multiset(Sanitize(s))[c] == if AllowedChar(c) then multiset(s)[c] else 0
    decreases |s|
  {
    if s != [] {
      SanitizeCounts(s[1..]);
      assert s == [s[0]] + s[1..];
      assert multiset(s) == multiset{s[0]} + multiset(s[1..]);
    }
  }

  /** A string of allowed characters is left as it is. */
  lemma {:induction false} SanitizeKeepsClean(s: string)
    requires forall i :: 0 <= i < |s| ==> AllowedChar(s[i])
    ensures Sanitize(s) == s
    decreases |s|
  {
    if s != [] {
      SanitizeKeepsClean(s[1..]);
      assert s == [s[0]] + s[1..];
    }
  }

  /** Sanitising twice is sanitising once. */
  lemma SanitizeIdempotent(s: string)
    ensures Sanitize(Sanitize(s)) == Sanitize(s)
  {
    SanitizeKeepsClean(Sanitize(s));
  }

  /** Line 41: the release package whose existence the tool requires, relative to the Titania root. */
  function PackagePath(v: string): (path: string)
    ensures |path| == 31 + |Sanitize(v)|
    ensures path[..27] == "store/phpbb_packages/phpBB-"
    ensures path[|path| - 4..] == ".zip"
    ensures path[27..|path| - 4] == Sanitize(v)
  {
    "store/phpbb_packages/phpBB-" + Sanitize(v) + ".zip"
  }

  /**
    Line 46: `(int) $v[0] . (int) $v[2]`, two single-digit casts joined as a
    string, so always two digit characters ("3.1.10" gives "31", "a.b.c" "00").
  */
  function BranchKey(v: string): (k: string)
    requires |v| >= 3
    ensures |k| == 2 && IsDigit(k[0]) && IsDigit(k[1])
    ensures CharToInt(k[0]) == CharToInt(v[0]) && CharToInt(k[1]) == CharToInt(v[2])
    ensures IsDigit(v[0]) ==> k[0] == v[0]
    ensures IsDigit(v[2]) ==> k[1] == v[2]
  {
    [DigitChar(CharToInt(v[0])), DigitChar(CharToInt(v[2]))]
  }

  /**
    The branch as the database reads it: the key spliced into SQL, or stored
    into an integer column, is the integer it spells.
  */
  function BranchNumber(v: string): (n: int)
    requires |v| >= 3
    ensures n == 10 * CharToInt(v[0]) + CharToInt(v[2])
    ensures 0 <= n <= 99
  {
    var k := BranchKey(v);
    IntCastTwoDigits(k[0], k[1]);
    assert k == [k[0], k[1]];
    IntCast(k)
  }

  /** Line 47: the point release is everything from index 4 on. */
  function PointRelease(v: string): (rel: string)
    requires ValidShape(v)
    ensures |rel| == |v| - 4 && v == v[..4] + rel
  {
    SubstrFrom(v, 4)
  }

  /** Line 51: the key the version catalog is looked up by. */
  function CatalogKey(v: string): (key: string)
    requires ValidShape(v)
    ensures |key| == 2 + |PointRelease(v)|
    ensures key[..2] == BranchKey(v) && key[2..] == PointRelease(v)
  {
    BranchKey(v) + PointRelease(v)
  }

  /**
    Line 70's `$limit_phpbb_versions[0] != 0`, negated, under PHP 7 loose
    comparison. The select's own "no restriction" option is "0" (line 150) and
    the request default is `['']` (line 32); both read as zero.
  */
  predicate FirstFilterIsZero(f: string) {
    LooselyEqualsZero(f)
  }

  /**
    Line 70: restrict to filters when more than one is given or the first is
    not zero. The request's filter array is taken to be keyed 0, 1, ... in
    order, as the version select posts it, so `$limit_phpbb_versions[0]` is
    the first element of the sequence.
  */
  predicate UsesLimiter(filters: seq<string>) {
    |filters| > 1 || (|filters| > 0 && !FirstFilterIsZero(filters[0]))
  }

  /** Line 77: a filter's branch is the integer cast of its first two characters. */
  function FilterBranch(f: string): int {
    IntCast(Substr(f, 0, 2))
  }

  /** Line 78: a filter's point release is everything from index 2 on. */
  function FilterRelease(f: string): (rel: string)
    ensures |f| >= 2 ==> f == f[..2] + rel
    ensures |f| <= 2 ==> rel == ""
  {
    SubstrFrom(f, 2)
  }

  /** The worked examples: "3.1.10" passes the shape check, "31.10" and "3.1." do not. */
  lemma ShapeExamples()
    ensures ValidShape("3.1.10") && !ValidShape("31.10") && !ValidShape("3.1.")
  {
  }

  /** "3.1.10" is branch "31", which the database reads as 31. */
  lemma BranchExample()
    ensures BranchKey("3.1.10") == "31" && BranchNumber("3.1.10") == 31
  {
    var v := "3.1.10";
    assert IsDigit(v[0]) && IsDigit(v[2]);
    assert CharToInt(v[0]) == 3 && CharToInt(v[2]) == 1;
  }

  /** "3.1.10" has point release "10". */
  lemma PointReleaseExample()
    ensures PointRelease("3.1.10") == "10"
  {
    ShapeExamples();
    PointReleaseOf("3.1.10");
    assert "3.1.10"[4..] == "10";
  }

  lemma PointReleaseOf(v: string)
    requires ValidShape(v)
    ensures PointRelease(v) == v[4..] && CatalogKey(v) == BranchKey(v) + v[4..]
  {
  }

  /** "3.1.10" needs the package phpBB-3.1.10.zip. */
  lemma PackageExample()
    ensures PackagePath("3.1.10") == "store/phpbb_packages/phpBB-3.1.10.zip"
  {
    SanitizeKeepsClean("3.1.10");
  }

  /** A catalog key used as a filter decomposes into the same branch and point release. */
  lemma FilterRoundTrip(v: string)
    requires ValidShape(v)
    ensures FilterBranch(CatalogKey(v)) == BranchNumber(v)
    ensures FilterRelease(CatalogKey(v)) == PointRelease(v)
  {
    var k := CatalogKey(v);
    assert Substr(k, 0, 2) == [k[0], k[1]];
    IntCastTwoDigits(k[0], k[1]);
  }

  /** A string starting with a non-zero digit is not loosely equal to 0. */
  lemma NonZeroLeadingDigit(f: string)
    requires |f| > 0 && IsDigit(f[0]) && f[0] != '0'
    ensures !FirstFilterIsZero(f)
  {
    assert SkipSpace(f) == f;
    var whole := LeadingDigits(f);
    assert |whole| > 0 && whole[0] == f[0];
  }

  lemma ZeroDigitsOfZero()
    ensures SkipSpace("0") == "0" && SkipSign("0") == "0" && LeadingDigits("0") == "0"
  {
    assert !IsSpace("0"[0]);
    assert LeadingDigits("0"[1..]) == "";
  }

  lemma ZeroMantissaOfZero()
    ensures MantissaDigits("0") == "0" && !HasNonZeroDigit("0")
  {
    ZeroDigitsOfZero();
    assert "0"[1..] == "";
  }

  /** The select's "0" reads as zero. */
  lemma ZeroOptionIsZero()
    ensures FirstFilterIsZero("0")
  {
    ZeroDigitsOfZero();
    ZeroMantissaOfZero();
  }

  /** The request default "" reads as zero. */
  lemma EmptyFilterIsZero()
    ensures FirstFilterIsZero("")
  {
    assert SkipSpace("") == "";
    assert MantissaDigits("") == "";
  }

  /** The two "no restriction" defaults keep the unrestricted path; a catalog key or a second filter leaves it. */
  lemma LimiterDefaults()
    ensures !UsesLimiter(["0"]) && !UsesLimiter([""]) && !UsesLimiter([])
    ensures UsesLimiter(["3110"]) && UsesLimiter(["0", "0"])
    ensures forall fs: seq<string> :: |fs| > 1 ==> UsesLimiter(fs)
  {
    ZeroOptionIsZero();
    EmptyFilterIsZero();
    NonZeroLeadingDigit("3110");
  }
}

=== FILE: version_tool.dfy ===
/**
  The phpBB-version bulk tagging tool, `phpbb_version_test::run_tool`
  (titania/includes/manage_tools/phpbb_version_test.php, lines 29-141).

  The tables it reads are sequences of rows, the package file check is
  membership in a set of existing paths, and the version catalog is the set
  of its keys. The rows the tool would insert into the automod queue table are
  returned rather than written.
*/
module VersionTool {
  import opened Wrappers
  import opened VersionInput
  import opened PhpArray

  /** A row of the contributions table: id and type. */
  datatype ContribRow = ContribRow(contribId: int, contribType: int)

  /** A row of the revisions table: id and owning contribution. */
  datatype RevisionRow = RevisionRow(revisionId: int, contribId: int)

  /** A row of the revisions-phpBB table: a revision tagged with a phpBB branch and point release. */
  datatype VersionRow = VersionRow(revisionId: int, contribId: int, branch: int, release: string)

  datatype Database = Database(
    contribs: seq<ContribRow>,
    revisions: seq<RevisionRow>,
    revisionVersions: seq<VersionRow>)

  /** The environment: existing files under the Titania root, the version catalog's keys, and each type's `automod_test` flag. */
  datatype Site = Site(files: set<string>, catalog: set<string>, automodTest: map<int, bool>)

  /** A row for the automod queue table (lines 131-135). */
  datatype QueueRow = QueueRow(revisionId: int, branch: int, release: string)

  datatype ToolError = NoVersionSelected | FileNotExist(path: string) | NoRevisionsUpdated

  /** What the success message reports: the rows inserted and their number. */
  datatype Report = Report(rows: seq<QueueRow>, count: nat)

  /**
    The tool's effect: whether the version catalog cache was destroyed
    (line 53, which happens before the later checks can still fail) and the
    inserted rows or the reason the tool stopped.
  */
  datatype ToolRun = ToolRun(cacheInvalidated: bool, result: Result<Report, ToolError>)

  /** A (contribution, revision) pair a query returns. */
  datatype Pair = Pair(contribId: int, revisionId: int)

  /** Lines 56-63: the types whose `automod_test` flag is set. */
  function TestableTypes(automodTest: map<int, bool>): set<int> {
    set t | t in automodTest && automodTest[t]
  }

  /** An entry of the type registry `titania_types::$types`: a type id and its `automod_test` flag. */
  datatype TypeEntry = TypeEntry(typeId: int, automodTest: bool)

  /** Lines 57-63: the `foreach` over the registry, appending each id whose flag is set. */
  function TestableTypeIds(types: seq<TypeEntry>): (ids: seq<int>)
    ensures |ids| <= |types|
    ensures forall t :: t in ids <==> TypeEntry(t, true) in types
  {
    if types == [] then []
    else
      var rest := TestableTypeIds(types[1..]);
      assert forall e :: e in types <==> e == types[0] || e in types[1..];
      if types[0].automodTest then [types[0].typeId] + rest else rest
  }

  /** `types` lists the registry's entries, every type of `registry` among them. */
  predicate Enumerates(types: seq<TypeEntry>, registry: map<int, bool>) {
    (forall e :: e in types ==> e.typeId in registry && registry[e.typeId] == e.automodTest)
    && (forall t :: t in registry ==> TypeEntry(t, registry[t]) in types)
  }

  /**
    The list the loop builds holds exactly the testable types, so line 64's
    `sizeof` test fails exactly when no type is testable.
  */
  lemma TestableTypeIdsMatch(types: seq<TypeEntry>, registry: map<int, bool>)
    requires Enumerates(types, registry)
    ensures forall t :: t in TestableTypeIds(types) <==> t in TestableTypes(registry)
    ensures |TestableTypeIds(types)| == 0 <==> TestableTypes(registry) == {}
  {
    var ids := TestableTypeIds(types);
    forall t ensures t in ids <==> t in TestableTypes(registry) {
      if t in registry && registry[t] {
        assert TypeEntry(t, registry[t]) in types;
      }
    }
    if |ids| > 0 {
      assert ids[0] in TestableTypes(registry);
    }
  }

  /** The join with the contributions table restricted to the testable types. */
  predicate EligibleContrib(db: Database, ts: set<int>, cid: int) {
    exists c :: c in db.contribs && c.contribId == cid && c.contribType in ts
  }

  /** The join with the revisions table. */
  predicate RevisionExists(db: Database, rid: int) {
    exists r :: r in db.revisions && r.revisionId == rid
  }

  /** Lines 94-97: every revision whose contribution has a testable type. */
  function AllQuery(rs: seq<RevisionRow>, db: Database, ts: set<int>): (ps: seq<Pair>)
    ensures forall p :: p in ps ==>
      EligibleContrib(db, ts, p.contribId) && RevisionRow(p.revisionId, p.contribId) in rs
    ensures forall r :: r in rs && EligibleContrib(db, ts, r.contribId) ==>
      Pair(r.contribId, r.revisionId) in ps
  {
    if rs == [] then []
    else
      var rest := AllQuery(rs[1..], db, ts);
      assert forall r :: r in rs ==> r == rs[0] || r in rs[1..];
      if EligibleContrib(db, ts, rs[0].contribId) then [Pair(rs[0].contribId, rs[0].revisionId)] + rest
      else rest
  }

  /** A branch and point release a filter selects. */
  datatype Target = Target(branch: int, release: string)

  /** Lines 77-78: the branch and point release filter `f` stands for. */
  function FilterTarget(f: string): Target {
    Target(FilterBranch(f), FilterRelease(f))
  }

  /** The conditions of the limiter query (lines 75-82) on one revisions-phpBB row. */
  predicate LimiterHit(db: Database, ts: set<int>, t: Target, row: VersionRow) {
    row.branch == t.branch && row.release == t.release
    && EligibleContrib(db, ts, row.contribId) && RevisionExists(db, row.revisionId)
  }

  /** Lines 75-82: the rows tagged with the target whose contribution is testable and whose revision exists. */
  function FilterQuery(rows: seq<VersionRow>, db: Database, ts: set<int>, t: Target): (ps: seq<Pair>)
    ensures forall p :: p in ps ==>
      VersionRow(p.revisionId, p.contribId, t.branch, t.release) in rows
      && LimiterHit(db, ts, t, VersionRow(p.revisionId, p.contribId, t.branch, t.release))
    ensures forall row :: row in rows && LimiterHit(db, ts, t, row) ==>
      Pair(row.contribId, row.revisionId) in ps
  {
    if rows == [] then []
    else
      var rest := FilterQuery(rows[1..], db, ts, t);
      assert forall row :: row in rows ==> row == rows[0] || row in rows[1..];
      if LimiterHit(db, ts, t, rows[0]) then [Pair(rows[0].contribId, rows[0].revisionId)] + rest
      else rest
  }

  /** Some pair of `ps` names revision `x`. */
  predicate Names(ps: seq<Pair>, x: int) {
    exists p :: p in ps && p.revisionId == x
  }

  /** Lines 84-87 and 99-102: `$revisions[$revision_id] = $contrib_id` for each row in turn. */
  function Collect(a: IntArray, ps: seq<Pair>): (r: IntArray)
    requires Valid(a)
    ensures Valid(r)
    ensures forall x :: x in r.keys <==> x in a.keys || Names(ps, x)
    decreases |ps|
  {
    if ps == [] then a
    else
      var r := Collect(Put(a, ps[0].revisionId, ps[0].contribId), ps[1..]);
      assert forall p :: p in ps ==> p == ps[0] || p in ps[1..];
      r
  }

  /** The limiter query for target `t` returns revision `x`. */
  predicate TargetNames(db: Database, ts: set<int>, t: Target, x: int) {
    Names(FilterQuery(db.revisionVersions, db, ts, t), x)
  }

  /** Lines 73-89: the limiter query for each filter in turn, all collected into one array. */
  function CollectTargets(a: IntArray, db: Database, ts: set<int>, targets: seq<Target>): (r: IntArray)
    requires Valid(a)
    ensures Valid(r)
    ensures forall x :: x in r.keys <==> x in a.keys || exists t :: t in targets && TargetNames(db, ts, t, x)
    decreases |targets|
  {
    if targets == [] then a
    else
      var ps := FilterQuery(db.revisionVersions, db, ts, targets[0]);
      var a' := Collect(a, ps);
      var r := CollectTargets(a', db, ts, targets[1..]);
      assert forall x :: x in r.keys <==> x in a.keys || exists t :: t in targets && TargetNames(db, ts, t, x) by {
        forall x ensures x in r.keys <==> x in a.keys || exists t :: t in targets && TargetNames(db, ts, t, x) {
          assert x in a'.keys <==> x in a.keys || TargetNames(db, ts, targets[0], x);
          if exists t :: t in targets && TargetNames(db, ts, t, x) {
            var t :| t in targets && TargetNames(db, ts, t, x);
            assert t == targets[0] || t in targets[1..];
          }
        }
      }
      r
  }

  /** The targets of all filters, in order. */
  function Targets(filters: seq<string>): (ts: seq<Target>)
    ensures |ts| == |filters|
    ensures forall i :: 0 <= i < |filters| ==> ts[i] == FilterTarget(filters[i])
  {
    seq(|filters|, i requires 0 <= i < |filters| => FilterTarget(filters[i]))
  }

  /**
    What makes `x` a candidate revision. With the limiter: some filter's
    target tags it in the revisions-phpBB table on a row whose contribution is
    testable, and the revision exists. Without: it is a revision of a testable
    contribution.
  */
  ghost predicate IsCandidate(db: Database, ts: set<int>, filters: seq<string>, x: int) {
    if UsesLimiter(filters) then
      exists i, row :: 0 <= i < |filters| && row in db.revisionVersions && row.revisionId == x
        && LimiterHit(db, ts, FilterTarget(filters[i]), row)
    else
      exists r :: r in db.revisions && r.revisionId == x && EligibleContrib(db, ts, r.contribId)
  }

  /** The limiter path's candidates are exactly the revisions some filter's query returns. */
  lemma LimiterCandidates(db: Database, ts: set<int>, filters: seq<string>, c: IntArray)
    requires UsesLimiter(filters) && Valid(c)
    requires forall x :: x in c.keys <==> exists t :: t in Targets(filters) && TargetNames(db, ts, t, x)
    ensures forall x :: x in c.keys <==> IsCandidate(db, ts, filters, x)
  {
    forall x ensures x in c.keys <==> IsCandidate(db, ts, filters, x) {
      if x in c.keys {
        var t :| t in Targets(filters) && TargetNames(db, ts, t, x);
        TargetNamesIsHit(db, ts, filters, t, x);
      }
      if IsCandidate(db, ts, filters, x) {
        var i, row :| 0 <= i < |filters| && row in db.revisionVersions && row.revisionId == x
          && LimiterHit(db, ts, FilterTarget(filters[i]), row);
        HitIsTargetNames(db, ts, filters, i, row);
      }
    }
  }

  lemma TargetNamesIsHit(db: Database, ts: set<int>, filters: seq<string>, t: Target, x: int)
    requires t in Targets(filters) && TargetNames(db, ts, t, x)
    ensures exists i, row ::
      0 <= i < |filters| && row in db.revisionVersions && row.revisionId == x
      && LimiterHit(db, ts, FilterTarget(filters[i]), row)
  {
    var row := TargetRow(db, ts, t, x);
    var i := TargetIndex(filters, t);
    assert LimiterHit(db, ts, FilterTarget(filters[i]), row);
  }

  lemma TargetRow(db: Database, ts: set<int>, t: Target, x: int) returns (row: VersionRow)
    requires TargetNames(db, ts, t, x)
    ensures row in db.revisionVersions && row.revisionId == x && LimiterHit(db, ts, t, row)
  {
    var p :| p in FilterQuery(db.revisionVersions, db, ts, t) && p.revisionId == x;
    row :| row in db.revisionVersions && LimiterHit(db, ts, t, row) && row.revisionId == p.revisionId;
  }

  lemma TargetIndex(filters: seq<string>, t: Target) returns (i: int)
    requires t in Targets(filters)
    ensures 0 <= i < |filters| && FilterTarget(filters[i]) == t
  {
    var targets := Targets(filters);
    i :| 0 <= i < |targets| && targets[i] == t;
  }

  lemma HitIsTargetNames(db: Database, ts: set<int>, filters: seq<string>, i: int, row: VersionRow)
    requires 0 <= i < |filters| && row in db.revisionVersions && LimiterHit(db, ts, FilterTarget(filters[i]), row)
    ensures exists t :: t in Targets(filters) && TargetNames(db, ts, t, row.revisionId)
  {
    var t := Targets(filters)[i];
    assert Pair(row.contribId, row.revisionId) in FilterQuery(db.revisionVersions, db, ts, t);
    assert TargetNames(db, ts, t, row.revisionId);
  }

  /** The unrestricted path's candidates are exactly the revisions of testable contributions. */
  lemma AllCandidates(db: Database, ts: set<int>, filters: seq<string>, c: IntArray)
    requires !UsesLimiter(filters) && Valid(c)
    requires forall x :: x in c.keys <==> Names(AllQuery(db.revisions, db, ts), x)
    ensures forall x :: x in c.keys <==> IsCandidate(db, ts, filters, x)
  {
    var ps := AllQuery(db.revisions, db, ts);
    forall x ensures x in c.keys <==> IsCandidate(db, ts, filters, x) {
      if x in c.keys {
        var p :| p in ps && p.revisionId == x;
        assert RevisionRow(p.revisionId, p.contribId) in db.revisions;
      }
      if IsCandidate(db, ts, filters, x) {
        var r :| r in db.revisions && r.revisionId == x && EligibleContrib(db, ts, r.contribId);
        assert Pair(r.contribId, r.revisionId) in ps;
      }
    }
  }

  /** Lines 69-104: the candidate revisions, keyed by revision id. */
  function Candidates(db: Database, ts: set<int>, filters: seq<string>): (c: IntArray)
    ensures Valid(c)
    ensures forall x :: x in c.keys <==> IsCandidate(db, ts, filters, x)
  {
    if UsesLimiter(filters) then
      var c := CollectTargets(Empty, db, ts, Targets(filters));
      LimiterCandidates(db, ts, filters, c);
      c
    else
      var c := Collect(Empty, AllQuery(db.revisions, db, ts));
      AllCandidates(db, ts, filters, c);
      c
  }

  /** The revisions-phpBB table already tags revision `x` with this branch and point release. */
  predicate AlreadyTagged(db: Database, x: int, branch: int, release: string) {
    exists row :: row in db.revisionVersions && row.revisionId == x && row.branch == branch && row.release == release
  }

  /** Lines 112-115: ids of candidates already tagged with the target branch and point release. */
  function TaggedQuery(rows: seq<VersionRow>, cand: IntArray, branch: int, release: string): (ids: seq<int>)
    ensures forall x :: x in ids ==> x in cand.keys
    ensures forall x :: x in ids ==>
      exists row :: row in rows && row.revisionId == x && row.branch == branch && row.release == release
    ensures forall row :: row in rows && row.revisionId in cand.keys && row.branch == branch && row.release == release ==>
      row.revisionId in ids
  {
    if rows == [] then []
    else
      var rest := TaggedQuery(rows[1..], cand, branch, release);
      var row := rows[0];
      assert forall r :: r in rows ==> r == row || r in rows[1..];
      if row.revisionId in cand.keys && row.branch == branch && row.release == release then [row.revisionId] + rest
      else rest
  }

  /** Lines 117-120: `unset` each id in turn. */
  function UnsetAll(a: IntArray, ids: seq<int>): (r: IntArray)
    requires Valid(a)
    ensures Valid(r)
    ensures forall x :: x in r.keys <==> x in a.keys && x !in ids
    decreases |ids|
  {
    if ids == [] then a
    else
      var r := UnsetAll(Unset(a, ids[0]), ids[1..]);
      assert forall x :: x in ids <==> x == ids[0] || x in ids[1..];
      r
  }

  /** Lines 128-136: one row per remaining revision, in the array's order, with the target version. */
  function Rows(keys: seq<int>, branch: int, release: string): (rows: seq<QueueRow>)
    ensures |rows| == |keys|
    ensures forall i :: 0 <= i < |rows| ==> rows[i] == QueueRow(keys[i], branch, release)
  {
    seq(|keys|, i requires 0 <= i < |keys| => QueueRow(keys[i], branch, release))
  }

  /** Some row of `rows` is for revision `x`. */
  predicate Emits(rows: seq<QueueRow>, x: int) {
    exists i :: 0 <= i < |rows| && rows[i].revisionId == x
  }

  /**
    `run_tool`, with its checks in the order the code makes them: the version
    string's shape, the package file, (the catalog cache,) testable types, a
    non-empty candidate set, and a non-empty remainder after exclusion.
  */
  function RunTool(version: string, filters: seq<string>, site: Site, db: Database): (run: ToolRun)
    ensures !ValidShape(version) ==> run == ToolRun(false, Failure(NoVersionSelected))
    ensures ValidShape(version) && PackagePath(version) !in site.files ==>
      run == ToolRun(false, Failure(FileNotExist(PackagePath(version))))
    ensures ValidShape(version) && PackagePath(version) in site.files ==>
      (run.cacheInvalidated <==> CatalogKey(version) !in site.catalog)
      && (run.result.Failure? ==> run.result.error == NoRevisionsUpdated)
    ensures run.result == Failure(NoRevisionsUpdated) ==>
      forall x :: !(IsCandidate(db, TestableTypes(site.automodTest), filters, x)
                    && !AlreadyTagged(db, x, BranchNumber(version), PointRelease(version)))
    ensures run.result.Success? ==>
      ValidShape(version) && PackagePath(version) in site.files
      && var rows := run.result.value.rows;
      && run.result.value.count == |rows| > 0
      && (forall i :: 0 <= i < |rows| ==>
            rows[i].branch == BranchNumber(version) && rows[i].release == PointRelease(version))
      && (forall i, j :: 0 <= i < j < |rows| ==> rows[i].revisionId != rows[j].revisionId)
      && (forall x :: Emits(rows, x) <==>
            IsCandidate(db, TestableTypes(site.automodTest), filters, x)
            && !AlreadyTagged(db, x, BranchNumber(version), PointRelease(version)))
  {
    if !ValidShape(version) then ToolRun(false, Failure(NoVersionSelected))
    else if PackagePath(version) !in site.files then ToolRun(false, Failure(FileNotExist(PackagePath(version))))
    else
      var branch := BranchNumber(version);
      var release := PointRelease(version);
      var invalidate := CatalogKey(version) !in site.catalog;
      var ts := TestableTypes(site.automodTest);
      if ts == {} then
        assert forall x :: !IsCandidate(db, ts, filters, x);
        ToolRun(invalidate, Failure(NoRevisionsUpdated))
      else
        var cand := Candidates(db, ts, filters);
        if Size(cand) == 0 then
          assert forall x :: !IsCandidate(db, ts, filters, x) by {
            forall x ensures !IsCandidate(db, ts, filters, x) {
              assert x !in cand.keys;
            }
          }
          ToolRun(invalidate, Failure(NoRevisionsUpdated))
        else
          var ids := TaggedQuery(db.revisionVersions, cand, branch, release);
          var remaining := UnsetAll(cand, ids);
          assert forall x :: x in remaining.keys <==>
            IsCandidate(db, ts, filters, x) && !AlreadyTagged(db, x, branch, release);
          if Size(remaining) == 0 then
            assert forall x :: x !in remaining.keys;
            ToolRun(invalidate, Failure(NoRevisionsUpdated))
          else
            var rows := Rows(remaining.keys, branch, release);
            assert forall x :: Emits(rows, x) <==> x in remaining.keys by {
              forall x ensures Emits(rows, x) <==> x in remaining.keys {
                if x in remaining.keys {
                  var i :| 0 <= i < |remaining.keys| && remaining.keys[i] == x;
                  assert rows[i].revisionId == x;
                }
              }
            }
            ToolRun(invalidate, Success(Report(rows, Size(remaining))))
  }

  /** With no type marked for automod testing the tool reports NO_REVISIONS_UPDATED and inserts nothing. */
  lemma NoTestableTypesUpdatesNothing(version: string, filters: seq<string>, site: Site, db: Database)
    requires ValidShape(version) && PackagePath(version) in site.files
    requires forall t :: t in site.automodTest ==> !site.automodTest[t]
    ensures RunTool(version, filters, site, db).result == Failure(NoRevisionsUpdated)
  {
    var ts := TestableTypes(site.automodTest);
    assert forall t :: t !in ts;
    assert ts == {};
    assert forall x :: !IsCandidate(db, ts, filters, x);
  }

  /**
    A revision several filters select, or that the revisions table lists more
    than once, is still emitted by exactly one row.
  */
  lemma CandidateEmittedOnce(version: string, filters: seq<string>, site: Site, db: Database, x: int)
    requires RunTool(version, filters, site, db).result.Success?
    requires IsCandidate(db, TestableTypes(site.automodTest), filters, x)
    requires !AlreadyTagged(db, x, BranchNumber(version), PointRelease(version))
    ensures var rows := RunTool(version, filters, site, db).result.value.rows;
      exists k :: 0 <= k < |rows| && rows[k].revisionId == x
        && forall m :: 0 <= m < |rows| && rows[m].revisionId == x ==> m == k
  {
    var rows := RunTool(version, filters, site, db).result.value.rows;
    assert Emits(rows, x);
    var k :| 0 <= k < |rows| && rows[k].revisionId == x;
    OnlyRowFor(rows, k);
  }

  /** In rows with distinct revision ids, row `k` is the only one for its revision. */
  lemma OnlyRowFor(rows: seq<QueueRow>, k: int)
    requires forall i, j :: 0 <= i < j < |rows| ==> rows[i].revisionId != rows[j].revisionId
    requires 0 <= k < |rows|
    ensures forall m :: 0 <= m < |rows| && rows[m].revisionId == rows[k].revisionId ==> m == k
  {
  }

  /**
    The tool's output goes to the automod queue table, not to the
    revisions-phpBB table it excludes by, so a revision it emits is one that
    table does not tag with the target version; running it again on the same
    tables emits the same rows again.
  */
  lemma EmittedRowsAreNotYetTagged(version: string, filters: seq<string>, site: Site, db: Database, i: int)
    requires RunTool(version, filters, site, db).result.Success?
    requires 0 <= i < |RunTool(version, filters, site, db).result.value.rows|
    ensures var row := RunTool(version, filters, site, db).result.value.rows[i];
      !AlreadyTagged(db, row.revisionId, row.branch, row.release)
  {
    var rows := RunTool(version, filters, site, db).result.value.rows;
    assert Emits(rows, rows[i].revisionId);
  }
}

=== FILE: wrappers.dfy ===
/** Failure-carrying wrappers shared by the queue and the version tool models. */
module Wrappers {

  /** An optional value: a request parameter that may be absent, an error that may not have happened. */
  datatype Option<+T> = None | Some(value: T)

  /** The value of an operation that either succeeds or reports an error. */
  datatype Result<+R, +E> = Success(value: R) | Failure(error: E)
}
